=== FILE: README.md ===
# newick.js `parse`, modelled in Dafny

newick.js exports one function, `parse(s)`. It reads a tree in Newick notation,
such as `(A:0.1,B:0.2,(C:0.3,D:0.4)E:0.5)F;`, and returns nested objects. Each
object may have a `name`, a `length` and a `branchset` (its list of children).
`parse` works in two stages, and the model follows them:

- **Tokenizer** (`tokenizer.dfy`, module `Tokenizer`). The source splits the text
  with a regular expression. The expression captures each of `( ) , : ;` and
  swallows the whitespace around it. The model writes this as an explicit scan.
  `RawSplit` cuts the text at every structural character.
  `Tokenize` then trims each literal only on the sides where it touches a
  delimiter, so the first literal keeps its leading whitespace and the last
  literal keeps its trailing whitespace. `\s` is the ECMAScript WhiteSpace and
  LineTerminator set.
- **Tree builder** (`builder.dfy`, module `Builder`). This is one left-to-right
  pass that switches on each token. `Step` is one iteration of the loop, `Run`
  is the loop, `Build` returns the node being filled at the end, and
  `Parse = Build ∘ Tokenize`. A JavaScript exception is a `Failure`:
  - `CommaOutsideBranchset`: `,` while no branchset is open;
  - `UnmatchedClose`: `)` while no branchset is open.
- **Objects and builder state** (`tree.dfy`, module `Tree`). `Node` is a tree
  object. Each property is either absent or set. `length` keeps the raw literal
  that the source hands to `parseFloat`. The source keeps shared references:
  `tree` and the `ancestors` array. The model keeps the same information as a
  zipper, `State(current, ancestors)`. Each `Frame` is an open ancestor: its
  name, its length and its children before the last one. `Spine` gives back the
  objects that `ancestors` refers to. `Root` gives the whole tree.
- **Reference printer** (`printer.dfy`, module `Printer`). The printer writes a
  tree in Newick notation. It is not part of newick.js. It is the inverse that
  the parser is checked against: `ParsePrint` proves that parsing the printed
  text gives the tree back. `RunFrom` is the loop over a list of tokens, so
  that the printed pieces of a tree can be followed one at a time.
- **Examples** (`examples.dfy`, module `Examples`). These are the doc-comment
  examples of newick.js, and six short inputs, the empty string, whitespace
  alone, `A:1.5;`, `A,B;`, `(A:0.1));` and `(A:0.1;`, each with its exact
  result.

The code and its doc comment disagree in one place, and the model follows the
code. The doc comment shows the tree with no names as `{}` objects. The code
sets `name` to the empty string whenever an empty literal follows `(`, `)` or
`,`. So `(,,(,));` gives every node the name `""` (`Examples.UnnamedParse`).

The doc comment does not cover two more behaviours of the code, and the model
follows the code in both:

- **First token.** The first token is never a name, because the token before
  it is `undefined`. So `A:1.5;` gives a node with a length and no name
  (`Examples.LeafParse`).
- **Unbalanced input.** `parse` returns whatever node is being filled at the
  end. On unbalanced input that is not the root (`Builder.UnbalancedReturnsInner`,
  `Examples.UnclosedParse`).

The code has no `;` case; `;` falls into the default branch with the literals,
and the scan goes on past it. On tokenizer output this changes nothing,
because the token before a `;` is always a literal (`Builder.SeparatorStep`).

## Model

| member | source | states |
|---|---|---|
| Tokenizer.RawSplit | newick.js:43 | the split yields an odd number of tokens, a literal around every delimiter; its full shape and its inverse are stated by `RawSplitShape`, `RawSplitConcat` and `RawSplitOfConcat` |
| Tokenizer.RawSplitShape | newick.js:43 | the unpruned split alternates literal and delimiter tokens, has one delimiter token per structural character, and keeps those characters in input order |
| Tokenizer.NoDelimiterRaw | newick.js:43 | text without a structural character splits into one literal token, the text itself |
| Tokenizer.Tokenize | newick.js:43 | one token per raw token; what each token is, is stated by `TokenizeShape` and `TokenizeTrims` |
| Tokenizer.NoDelimiterTokenize | newick.js:43 | text without a structural character tokenizes to itself, untrimmed |
| Tokenizer.TokenizeShape | newick.js:43 | the tokens have odd length; even positions hold literals with no structural character; odd positions hold the structural characters of the input, one each, in input order |
| Tokenizer.TokenizeTrims | newick.js:43 | each literal token is its raw text with only the whitespace next to a delimiter removed: the start is trimmed unless it is the first literal, the end unless it is the last |
| Tokenizer.TrimStart | newick.js:43 | the result is a suffix of the input; everything dropped is whitespace; the result does not start with whitespace |
| Tokenizer.TrimEnd | newick.js:43 | the result is a prefix of the input; everything dropped is whitespace; the result does not end with whitespace |
| Tokenizer.RawSplitConcat | newick.js:43 | concatenating the unpruned split reproduces the input: nothing is dropped or reordered |
| Tokenizer.RawSplitOfConcat | newick.js:43 | splitting the concatenation of any alternating token sequence gives that sequence back, so the split and concatenation are inverse |
| Tokenizer.TokenizeRoundTrip | newick.js:43 | on input without whitespace the tokens are the unpruned split and concatenate back to the input |
| Tokenizer.TokenizeConcat | newick.js:43 | alternating tokens whose literals have no whitespace at either end are exactly what their concatenation tokenizes to |
| Tokenizer.UnpaddedTrim | newick.js:43 | a text has no whitespace at either end exactly when trimming both ends leaves it unchanged |
| Tree.Spine | newick.js:41-42 | the objects on the ancestors stack each have a present, non-empty branchset, carry their frame's name and length, and each one's last child is the next one up, with the top one's last child being the node being filled |
| Tree.RootIsSpineBottom | newick.js:42 | the whole tree is the bottom entry of the ancestors stack whenever the stack is not empty |
| Tree.ValidRoot | newick.js:49-50 | if the node being filled and all finished children are well formed, every present branchset of the whole tree is non-empty |
| Builder.Open | newick.js:47-52 | `(` makes a fresh node the one being filled and pushes one frame, keeping every frame below it; the node that was being filled becomes the top ancestor, keeping its name and length, with the fresh node as its only child |
| Builder.OpenEffect | newick.js:47-52 | `(` gives the node being filled exactly one child, a fresh node, dropping any children it had; the stack below and every other node are unchanged |
| Builder.Sibling | newick.js:53-57 | `,` keeps the stack depth and every frame below the top, makes a fresh node the one being filled, and the top ancestor's children become its old children with one fresh node appended |
| Builder.SiblingEffect | newick.js:53-57 | `,` appends one fresh node to the end of the top ancestor's children; the rest of the stack and every other node are unchanged |
| Builder.Close | newick.js:58-60 | `)` pops exactly the top frame, makes the top ancestor, with all its children, the node being filled, and leaves the whole tree unchanged |
| Builder.CloseEffect | newick.js:58-60 | `)` makes the popped ancestor the node being filled, shrinks the stack by one, and leaves the whole tree unchanged |
| Builder.Label | newick.js:63-69 | a literal after `(`, `)` or `,` sets the name; after `:` it sets the length; otherwise it changes nothing; the stack and branchset are never touched |
| Builder.LiteralStep | newick.js:63-69 | a literal changes the name only if the previous token is `(`, `)` or `,`, and then to the literal; it changes the length only if the previous token is `:`, and then to the literal; as the first token or after `;` it changes nothing |
| Builder.SeparatorStep | newick.js:61-62 | on tokenizer output, `:` and `;` leave the state unchanged |
| Builder.Apply | newick.js:45-70 | the switch on one token; its outcome is stated by `Step` (and per case by `Open`, `Sibling`, `Close`, `Label`) |
| Builder.Step | newick.js:44-70 | one token fails exactly when it is `,` or `)` and no branchset is open, with the comma error for `,` and the unmatched-close error for `)`; otherwise the stack grows by one for `(`, shrinks by one for `)`, and keeps its depth for anything else |
| Builder.Run | newick.js:44-71 | the loop; what it computes is stated by `RunOutcome`, `RunError` and `RunValid` |
| Builder.RunOutcome | newick.js:44-71 | the loop fails exactly when some `,` or `)` comes with no branchset open; otherwise the final stack depth is the count of `(` minus the count of `)` |
| Builder.RunError | newick.js:44-71 | when the loop fails there is a `,` or `)` at which no branchset is open and before which no token underflowed, and the error is the one for that token |
| Builder.Build | newick.js:41-72 | the returned node; its outcome, its identity and its shape are stated by `BuildOutcome`, `BalancedReturnsRoot`, `UnbalancedReturnsInner` and `BuildWellFormed` |
| Builder.Parse | newick.js:40-73 | `parse(s)`; its round trip is stated by `Printer.ParsePrint`, its concrete results by the examples |
| Builder.BuildOutcome | newick.js:41-72 | `parse` on a token sequence succeeds exactly when no `,` or `)` comes with no branchset open |
| Builder.BalancedReturnsRoot | newick.js:72 | on balanced tokens that never underflow, the returned node is the root of the whole tree |
| Builder.UnbalancedReturnsInner | newick.js:72 | with branchsets left open, the returned node is the last child of the innermost open branchset, and it is not the root |
| Builder.StepValid | newick.js:47-69 | every step keeps the builder invariant: the node being filled and all finished children are well formed |
| Builder.RunValid | newick.js:44-71 | the loop keeps the builder invariant from any valid state |
| Builder.BuildWellFormed | newick.js:41-72 | every node `parse` returns has non-empty branchsets all the way down |
| Printer.TokenizePrint | newick.js:43 | printed text tokenizes to the printed tokens followed by `;` and an empty literal |
| Printer.RunIsRunFrom | newick.js:44-71 | the loop from index `i` is the loop over the tokens from `i` on, started with the token before `i` |
| Printer.EmitFrom | newick.js:44-71 | the printed tokens of a non-root node, read after `(` or `,` with a fresh node to fill, fill that node with exactly the printed node and leave the stack as it was |
| Printer.EncloseFrom | newick.js:47-60 | `(`, the printed children and `)` give the node being filled exactly those children and leave its name, its length and the stack as they were |
| Printer.EmitAllFrom | newick.js:47-57 | printed siblings separated by `,` leave the last sibling being filled and append the others, in order, to the top ancestor's children |
| Printer.ParsePrint | newick.js:40-73 | parsing the printed text of any printable tree succeeds and gives the tree back, except that a root leaf loses its name |
| Examples.CanonicalParse | newick.js:11-28 | `(A:0.1,B:0.2,(C:0.3,D:0.4)E:0.5)F;` parses to root `F` with children `A`, `B` and `E`, where `E` has children `C` and `D`, with the lengths as written |
| Examples.ShapedParse | newick.js:11-28 | any names and lengths in the shape of that example parse back to the same tree |
| Examples.UnnamedParse | newick.js:30-37 | `(,,(,));` parses to the shape of the no-names example, with every name the empty string |
| Examples.SameNameParse | newick.js:30-37 | that shape with every node named by the same plain text `x` parses to the tree with every name `x` |
| Examples.NoDelimiterParse | newick.js:43-64 | any text without a structural character, whitespace-only text included, parses to a root with no name, no length and no branchset, because its one literal sits at index 0 |
| Examples.EmptyParse | newick.js:43-64 | the empty string parses to a root with no name, no length and no branchset |
| Examples.BlankParse | newick.js:43-64 | whitespace alone parses to a root with no name, no length and no branchset |
| Examples.LeafParse | newick.js:64-69 | `A:1.5;` parses to a node with length `1.5` and no name |
| Examples.LoneLeafParse | newick.js:64-69 | for any plain name and length, `name:length;` parses to a node with that length and no name |
| Examples.CommaParse | newick.js:53-55 | `A,B;` fails with a comma outside any branchset |
| Examples.TopLevelCommaParse | newick.js:53-55 | for any plain names `a` and `b`, `a,b;` fails with a comma outside any branchset |
| Examples.CloseParse | newick.js:58-66 | `(A:0.1));` fails with an unmatched `)` |
| Examples.ExtraCloseParse | newick.js:58-66 | for any plain name and length, `(name:length));` fails with an unmatched `)` |
| Examples.UnclosedParse | newick.js:72 | `(A:0.1;` returns the innermost open node `A:0.1`, not the root |
| Examples.UnclosedLeafParse | newick.js:72 | for any plain name and length, `(name:length;` returns the open leaf `name:length`, not the root |

## Left out

- `parseFloat` (newick.js:68): a length is kept as the raw literal string. Number
  parsing, `NaN` and floating point are not modelled.
- The CommonJS/browser export wrapper (newick.js:39, 74-81): host plumbing.
- JavaScript object identity and aliasing: the zipper holds the same
  information as the shared references, and `Tree.Spine` gives the objects back.
- Regular-expression semantics in general: the one split is written as a scan.
  Strings are sequences of characters. UTF-16 surrogate pairs are not
  modelled separately, and `\s` covers the characters listed in
  `Tokenizer.IsSpace`.
- `Builder.Step`: a `)` with no branchset open fails at once. The source fails
  one step later, at the literal that always follows `)`, when it assigns to
  `undefined.name`. No state is observable in between, so the outcome is the
  same.
- `Printer.ParsePrint` covers trees where every node has a name, every
  branchset is non-empty, and names and lengths contain no structural
  character and no whitespace at either end. Whitespace inside a name or
  length is kept. The lemma does not cover a root leaf without a name, which
  also reads back unchanged. Within the covered trees, the one loss is a root
  leaf's name, and `Printer.Reparsed` describes it.

=== FILE: builder.dfy ===
/** The tree builder of newick.js: one left-to-right pass over the tokens that
    switches on each token and keeps the node being filled and the stack of
    open branchsets. A JavaScript exception is a `Failure`. */
module Builder {
  import opened Wrappers
  import opened Tree
  import Tokenizer

  /** The two ways the JavaScript builder throws. */
  datatype ParseError =
    | CommaOutsideBranchset  // `,` with no open branchset: the top ancestor is undefined
    | UnmatchedClose         // `)` with no open branchset: `tree` becomes undefined

  /** Before the first token: `tree` is `{}` and no branchset is open. */
  const Start := State(Fresh, [])

  /** A literal after one of these tokens is the name of the node being filled. */
  predicate NameFollows(previous: Option<string>) {
    previous == Some("(") || previous == Some(")") || previous == Some(",")
  }

  /** `(`: the node being filled is pushed and a fresh child is filled next. */
  function Open(st: State): (st': State)
    ensures st'.current == Fresh
    ensures |st'.ancestors| == |st.ancestors| + 1
    ensures st'.ancestors[..|st.ancestors|] == st.ancestors
    ensures Parent(st') == st.current.(branchset := Present([Fresh]))
  {
    State(Fresh, st.ancestors + [Frame(st.current.name, st.current.length, [])])
  }

  /** `,` inside a branchset: a fresh sibling is filled next. */
  function Sibling(st: State): (st': State)
    requires |st.ancestors| > 0
    ensures st'.current == Fresh
    ensures |st'.ancestors| == |st.ancestors|
    ensures st'.ancestors[..|st.ancestors| - 1] == st.ancestors[..|st.ancestors| - 1]
    ensures Parent(st') == Parent(st).(branchset := Present(Parent(st).branchset.nodes + [Fresh]))
  {
    var n := |st.ancestors|;
    var top := Last(st.ancestors);
    var st' := State(Fresh, st.ancestors[..n - 1] + [top.(earlier := top.earlier + [st.current])]);
    assert st'.ancestors[..n - 1] == st.ancestors[..n - 1];
    st'
  }

  /** `)` inside a branchset: the top ancestor is popped and filled next. */
  function Close(st: State): (st': State)
    requires |st.ancestors| > 0
    ensures |st'.ancestors| == |st.ancestors| - 1
    ensures st'.current == Parent(st) && st'.ancestors == st.ancestors[..|st.ancestors| - 1]
    ensures Root(st') == Root(st)
  {
    State(Parent(st), st.ancestors[..|st.ancestors| - 1])
  }

  /** A literal token: the name of the node being filled after `(`, `)` or `,`,
      its length after `:`, and ignored otherwise (first token, after `;`). */
  function Label(st: State, previous: Option<string>, token: string): (st': State)
    ensures st'.ancestors == st.ancestors && st'.current.branchset == st.current.branchset
    ensures NameFollows(previous) ==> st'.current == st.current.(name := Some(token))
    ensures previous == Some(":") ==> st'.current == st.current.(length := Some(token))
    ensures !NameFollows(previous) && previous != Some(":") ==> st' == st
  {
    if NameFollows(previous) then st.(current := st.current.(name := Some(token)))
    else if previous == Some(":") then st.(current := st.current.(length := Some(token)))
    else st
  }

  /** How a token moves the depth of the branchset stack. */
  function Delta(token: string): int {
    if token == "(" then 1 else if token == ")" then -1 else 0
  }

  /** The exception a token throws when no branchset is open. */
  function ErrorFor(token: string): ParseError {
    if token == "," then CommaOutsideBranchset else UnmatchedClose
  }

  /** Tokens that need an open branchset. */
  predicate NeedsBranchset(token: string) {
    token == ")" || token == ","
  }

  /** The switch on one token, given the token before it (`None` for the very
      first token). `;` has no case of its own and falls to the default branch
      with the literals. */
  function Apply(st: State, previous: Option<string>, token: string): Result<State, ParseError> {
    if token == "(" then Success(Open(st))
    else if token == "," then
      if |st.ancestors| == 0 then Failure(CommaOutsideBranchset) else Success(Sibling(st))
    else if token == ")" then
      if |st.ancestors| == 0 then Failure(UnmatchedClose) else Success(Close(st))
    else if token == ":" then Success(st)
    else Success(Label(st, previous, token))
  }

  /** One iteration of the loop on `tokens[i]`. */
  function Step(st: State, tokens: seq<string>, i: nat): (r: Result<State, ParseError>)
    requires i < |tokens|
    ensures r.Failure? <==> NeedsBranchset(tokens[i]) && |st.ancestors| == 0
    ensures r.Failure? ==> r.error == ErrorFor(tokens[i])
    ensures r.Success? ==> |r.value.ancestors| == |st.ancestors| + Delta(tokens[i])
  {
    Apply(st, if i == 0 then None else Some(tokens[i - 1]), tokens[i])
  }

  /** The loop from `tokens[i]` to the end, stopping at the first throw. */
  function Run(st: State, tokens: seq<string>, i: nat): Result<State, ParseError>
    requires i <= |tokens|
    decreases |tokens| - i
  {
    if i == |tokens| then Success(st)
    else
      match Step(st, tokens, i)
      case Failure(e) => Failure(e)
      case Success(st') => Run(st', tokens, i + 1)
  }

  /** The builder on a token sequence: the node being filled when the tokens run out. */
  function Build(tokens: seq<string>): Result<Node, ParseError> {
    match Run(Start, tokens, 0)
    case Failure(e) => Failure(e)
    case Success(st) => Success(st.current)
  }

  /** `parse(s)`. */
  function Parse(s: string): Result<Node, ParseError> {
    Build(Tokenizer.Tokenize(s))
  }

  // ---------------------------------------------------------------------------
  // What each structural token does to the tree

  /** `(` gives the node being filled exactly one child, a fresh node, dropping
      any children it had; the node is pushed and the child is filled next.
      The stack below is untouched and no other node of the tree changes. */
  lemma OpenEffect(st: State)
    ensures var st' := Open(st);
      st'.current == Fresh
      && st'.ancestors[..|st.ancestors|] == st.ancestors
      && Parent(st') == st.current.(branchset := Present([Fresh]))
      && Root(st') == Fill(st.ancestors, st.current.(branchset := Present([Fresh])))
  {
    var st' := Open(st);
    assert st'.ancestors[..|st.ancestors|] == st.ancestors;
  }

  /** `,` appends one fresh node at the end of the top ancestor's children and
      fills it next; the rest of the stack and every other node are unchanged. */
  lemma SiblingEffect(st: State)
    requires |st.ancestors| > 0
    ensures var st', n := Sibling(st), |st.ancestors|;
      st'.current == Fresh
      && st'.ancestors[..n - 1] == st.ancestors[..n - 1]
      && Parent(st') == Parent(st).(branchset := Present(Parent(st).branchset.nodes + [Fresh]))
      && Root(st') == Fill(st.ancestors[..n - 1], Parent(st'))
  {
    var st', n := Sibling(st), |st.ancestors|;
    assert st'.ancestors[..n - 1] == st.ancestors[..n - 1];
  }

  /** `)` makes the popped ancestor the node being filled and shrinks the stack
      by one; the tree itself does not change. */
  lemma CloseEffect(st: State)
    requires |st.ancestors| > 0
    ensures var st' := Close(st);
      st'.current == Parent(st)
      && st'.ancestors == st.ancestors[..|st.ancestors| - 1]
      && Root(st') == Root(st)
  {
  }

  /** A literal names the node being filled exactly when the token before it
      is `(`, `)` or `,`, and gives its length exactly when the token before it
      is `:`. As the very first token, or after `;`, it changes nothing. */
  lemma LiteralStep(st: State, tokens: seq<string>, i: nat)
    requires i < |tokens| && Tokenizer.IsLiteral(tokens[i])
    ensures Step(st, tokens, i).Success?
    ensures var st' := Step(st, tokens, i).value;
      st'.ancestors == st.ancestors
      && st'.current.branchset == st.current.branchset
      && (st'.current.name != st.current.name ==> i > 0 && NameFollows(Some(tokens[i - 1])))
      && (st'.current.length != st.current.length ==> i > 0 && tokens[i - 1] == ":")
      && (i > 0 && NameFollows(Some(tokens[i - 1])) ==> st'.current.name == Some(tokens[i]))
      && (i > 0 && tokens[i - 1] == ":" ==> st'.current.length == Some(tokens[i]))
      && (i == 0 || tokens[i - 1] == ";" ==> st' == st)
  {
    Tokenizer.LiteralIsNoToken(tokens[i]);
  }

  /** On tokenizer output, `:` and `;` leave the state as it is: `;` reaches
      the default branch of the switch, but the token before it is a literal. */
  lemma SeparatorStep(st: State, tokens: seq<string>, i: nat)
    requires Tokenizer.Alternates(tokens) && i < |tokens|
    requires tokens[i] == ":" || tokens[i] == ";"
    ensures Step(st, tokens, i) == Success(st)
  {
    if tokens[i] == ";" {
      assert !Tokenizer.IsLiteral(tokens[i]) by {
        assert Tokenizer.IsDelimiter(tokens[i][0]);
      }
      assert i % 2 == 1;
      Tokenizer.LiteralIsNoToken(tokens[i - 1]);
    }
  }

  // ---------------------------------------------------------------------------
  // When the builder throws, and what stack depth it ends with

  /** Net number of open branchsets after `ts`: `(` count minus `)` count. */
  function Depth(ts: seq<string>): int {
    if |ts| == 0 then 0 else Delta(ts[0]) + Depth(ts[1..])
  }

  /** Starting with `base` open branchsets, every `)` and `,` in `ts` comes
      while at least one branchset is open. */
  ghost predicate NeverUnderflows(ts: seq<string>, base: int) {
    forall j :: 0 <= j < |ts| && NeedsBranchset(ts[j]) ==> base + Depth(ts[..j]) > 0
  }

  lemma NeverUnderflowsCons(ts: seq<string>, base: int)
    requires |ts| > 0
    ensures NeverUnderflows(ts, base) <==>
      (NeedsBranchset(ts[0]) ==> base > 0) && NeverUnderflows(ts[1..], base + Delta(ts[0]))
  {
    forall j | 1 <= j <= |ts|
      ensures Depth(ts[..j]) == Delta(ts[0]) + Depth(ts[1..][..j - 1])
    {
      assert ts[..j][1..] == ts[1..][..j - 1];
    }
    assert ts[..0] == [];
    if NeverUnderflows(ts, base) {
      forall j | 0 <= j < |ts[1..]| && NeedsBranchset(ts[1..][j])
        ensures base + Delta(ts[0]) + Depth(ts[1..][..j]) > 0
      {
        assert ts[j + 1] == ts[1..][j];
      }
    }
    if (NeedsBranchset(ts[0]) ==> base > 0) && NeverUnderflows(ts[1..], base + Delta(ts[0])) {
      forall j | 0 <= j < |ts| && NeedsBranchset(ts[j]) ensures base + Depth(ts[..j]) > 0 {
        if j > 0 {
          assert ts[1..][j - 1] == ts[j];
        }
      }
    }
  }

  /** The loop throws exactly when some `)` or `,` comes with no branchset
      open, and otherwise ends with as many open branchsets as `(` minus `)`. */
  lemma {:induction false} RunOutcome(st: State, tokens: seq<string>, i: nat)
    requires i <= |tokens|
    ensures Run(st, tokens, i).Success? <==> NeverUnderflows(tokens[i..], |st.ancestors|)
    ensures Run(st, tokens, i).Success? ==>
      |Run(st, tokens, i).value.ancestors| == |st.ancestors| + Depth(tokens[i..])
    decreases |tokens| - i
  {
    if i < |tokens| {
      NeverUnderflowsCons(tokens[i..], |st.ancestors|);
      assert tokens[i..][0] == tokens[i] && tokens[i..][1..] == tokens[i + 1..];
      match Step(st, tokens, i)
      case Failure(e) =>
      case Success(st') =>
        RunOutcome(st', tokens, i + 1);
    }
  }

  /** When the loop throws, it throws the exception of the first `)` or `,`
      that comes with no branchset open: every earlier one had a branchset. */
  lemma {:induction false} RunError(st: State, tokens: seq<string>, i: nat)
    requires i <= |tokens|
    ensures Run(st, tokens, i).Failure? ==>
      exists j :: i <= j < |tokens| && NeedsBranchset(tokens[j])
        && |st.ancestors| + Depth(tokens[i..j]) == 0
        && NeverUnderflows(tokens[i..j], |st.ancestors|)
        && Run(st, tokens, i).error == ErrorFor(tokens[j])
    decreases |tokens| - i
  {
    if i < |tokens| {
      match Step(st, tokens, i)
      case Failure(e) =>
        assert tokens[i..i] == [];
        assert NeverUnderflows(tokens[i..i], |st.ancestors|);
      case Success(st') =>
        RunError(st', tokens, i + 1);
        if Run(st, tokens, i).Failure? {
          var j :| i + 1 <= j < |tokens| && NeedsBranchset(tokens[j])
            && |st'.ancestors| + Depth(tokens[i + 1..j]) == 0
            && NeverUnderflows(tokens[i + 1..j], |st'.ancestors|)
            && Run(st', tokens, i + 1).error == ErrorFor(tokens[j]);
          var ts := tokens[i..j];
          assert ts[0] == tokens[i] && ts[1..] == tokens[i + 1..j];
          NeverUnderflowsCons(ts, |st.ancestors|);
        }
    }
  }

  /** `Build` throws exactly when a `)` or `,` comes at the top level. */
  lemma BuildOutcome(tokens: seq<string>)
    ensures Build(tokens).Success? <==> NeverUnderflows(tokens, 0)
    ensures Build(tokens).Failure? <==> Run(Start, tokens, 0).Failure?
  {
    RunOutcome(Start, tokens, 0);
    assert tokens[0..] == tokens;
  }

  // ---------------------------------------------------------------------------
  // Which node is returned

  /** Balanced input returns the root: the object first bound to `tree`. */
  lemma BalancedReturnsRoot(tokens: seq<string>)
    requires NeverUnderflows(tokens, 0) && Depth(tokens) == 0
    ensures Run(Start, tokens, 0).Success?
    ensures Build(tokens) == Success(Root(Run(Start, tokens, 0).value))
  {
    RunOutcome(Start, tokens, 0);
    assert tokens[0..] == tokens;
  }

  /** With branchsets left open, the returned node is the last child of the
      innermost open one, not the root. */
  lemma UnbalancedReturnsInner(tokens: seq<string>)
    requires NeverUnderflows(tokens, 0) && Depth(tokens) > 0
    ensures Run(Start, tokens, 0).Success?
    ensures var st := Run(Start, tokens, 0).value;
      |st.ancestors| == Depth(tokens)
      && Build(tokens) == Success(Last(Parent(st).branchset.nodes))
      && Build(tokens).value != Root(st)
  {
    RunOutcome(Start, tokens, 0);
    assert tokens[0..] == tokens;
    var st := Run(Start, tokens, 0).value;
    FillGrows(st.ancestors, st.current);
  }

  /** Plugging a node into at least one frame makes a strictly larger tree. */
  lemma {:induction false} FillGrows(frames: seq<Frame>, n: Node)
    requires |frames| > 0
    ensures Size(Fill(frames, n)) > Size(n)
    decreases |frames|
  {
    var top := Plug(Last(frames), n);
    SizeAllAppend(Last(frames).earlier, n);
    if |frames| > 1 {
      FillGrows(frames[..|frames| - 1], top);
    }
  }

  // ---------------------------------------------------------------------------
  // The tree stays well formed

  /** Every step keeps every open branchset non-empty and every present
      children list non-empty. */
  lemma StepValid(st: State, tokens: seq<string>, i: nat)
    requires i < |tokens| && Valid(st)
    requires Step(st, tokens, i).Success?
    ensures Valid(Step(st, tokens, i).value)
  {
    var st' := Step(st, tokens, i).value;
    var token := tokens[i];
    if token == "," {
      var n := |st.ancestors|;
      forall k, j | 0 <= k < n && 0 <= j < |st'.ancestors[k].earlier|
        ensures WellFormed(st'.ancestors[k].earlier[j])
      {
        if k < n - 1 {
          assert st'.ancestors[k] == st.ancestors[k];
        } else if j < |st.ancestors[k].earlier| {
          assert st'.ancestors[k].earlier[j] == st.ancestors[k].earlier[j];
        }
      }
    } else if token == ")" {
      assert WellFormed(Parent(st)) by {
        var cs := Parent(st).branchset.nodes;
        forall j | 0 <= j < |cs| ensures WellFormed(cs[j]) {
          if j < |cs| - 1 {
            assert cs[j] == Last(st.ancestors).earlier[j];
          }
        }
      }
      forall k, j | 0 <= k < |st'.ancestors| && 0 <= j < |st'.ancestors[k].earlier|
        ensures WellFormed(st'.ancestors[k].earlier[j])
      {
        assert st'.ancestors[k] == st.ancestors[k];
      }
    } else if token == "(" {
      forall k, j | 0 <= k < |st'.ancestors| && 0 <= j < |st'.ancestors[k].earlier|
        ensures WellFormed(st'.ancestors[k].earlier[j])
      {
        assert k < |st.ancestors|;
        assert st'.ancestors[k] == st.ancestors[k];
      }
    }
  }

  lemma {:induction false} RunValid(st: State, tokens: seq<string>, i: nat)
    requires i <= |tokens| && Valid(st)
    requires Run(st, tokens, i).Success?
    ensures Valid(Run(st, tokens, i).value)
    decreases |tokens| - i
  {
    if i < |tokens| {
      StepValid(st, tokens, i);
      RunValid(Step(st, tokens, i).value, tokens, i + 1);
    }
  }

  /** Whatever node `Build` returns, and the whole tree it sits in, has no
      empty children list anywhere. */
  lemma BuildWellFormed(tokens: seq<string>)
    requires Build(tokens).Success?
    ensures WellFormed(Build(tokens).value)
    ensures WellFormed(Root(Run(Start, tokens, 0).value))
  {
    RunValid(Start, tokens, 0);
    ValidRoot(Run(Start, tokens, 0).value);
  }
}

=== FILE: examples.dfy ===
/** The examples in the doc comment of newick.js, as parses of concrete text. */
module Examples {
  import opened Wrappers
  import opened Tree
  import opened Builder
  import opened Printer
  import opened Tokenizer

  function Leaf(name: string, length: string): Node {
    Node(Some(name), Some(length), Absent)
  }

  /** The shape of the canonical example: three children, the last of them
      internal with two leaves. */
  function Shaped(a: string, la: string, b: string, lb: string, c: string, lc: string,
                  d: string, ld: string, e: string, le: string, f: string): Node
  {
    Node(Some(f), None, Present([
      Leaf(a, la),
      Leaf(b, lb),
      Node(Some(e), Some(le), Present([Leaf(c, lc), Leaf(d, ld)]))]))
  }

  /** The tree of `(A:0.1,B:0.2,(C:0.3,D:0.4)E:0.5)F;`. */
  function Canonical(): Node {
    Shaped("A", "0.1", "B", "0.2", "C", "0.3", "D", "0.4", "E", "0.5", "F")
  }

  lemma CanonicalParse()
    ensures Parse("(A:0.1,B:0.2,(C:0.3,D:0.4)E:0.5)F;") == Success(Canonical())
  {
    CanonicalPlain();
    ShapedParse("A", "0.1", "B", "0.2", "C", "0.3", "D", "0.4", "E", "0.5", "F");
    CanonicalAssembled();
  }

  lemma CanonicalPlain()
    ensures PlainText("A") && PlainText("B") && PlainText("C") && PlainText("D")
    ensures PlainText("E") && PlainText("F")
    ensures PlainText("0.1") && PlainText("0.2") && PlainText("0.3") && PlainText("0.4")
    ensures PlainText("0.5")
  {
  }

  lemma CanonicalAssembled()
    ensures var a, la, b, lb, c, lc, d, ld, e, le, f :=
      "A", "0.1", "B", "0.2", "C", "0.3", "D", "0.4", "E", "0.5", "F";
      "(" + ((a + ":" + la) + "," + (b + ":" + lb) + "," + ("(" + ((c + ":" + lc) + "," + (d + ":" + ld)) + ")" + e + (":" + le))) + ")" + f + ";" == "(A:0.1,B:0.2,(C:0.3,D:0.4)E:0.5)F;"
  {
  }

  /** Any names and lengths in the canonical example's shape parse back. */
  lemma ShapedParse(a: string, la: string, b: string, lb: string, c: string, lc: string,
                    d: string, ld: string, e: string, le: string, f: string)
    requires PlainText(a) && PlainText(la) && PlainText(b) && PlainText(lb)
    requires PlainText(c) && PlainText(lc) && PlainText(d) && PlainText(ld)
    requires PlainText(e) && PlainText(le) && PlainText(f)
    ensures Parse("(" + ((a + ":" + la) + "," + (b + ":" + lb) + "," + ("(" + ((c + ":" + lc) + "," + (d + ":" + ld)) + ")" + e + (":" + le))) + ")" + f + ";")
      == Success(Shaped(a, la, b, lb, c, lc, d, ld, e, le, f))
  {
    var t := Shaped(a, la, b, lb, c, lc, d, ld, e, le, f);
    ShapedPrintable(a, la, b, lb, c, lc, d, ld, e, le, f);
    ParsePrint(t);
    ShapedText(a, la, b, lb, c, lc, d, ld, e, le, f);
  }

  lemma ShapedPrintable(a: string, la: string, b: string, lb: string, c: string, lc: string,
                        d: string, ld: string, e: string, le: string, f: string)
    requires PlainText(a) && PlainText(la) && PlainText(b) && PlainText(lb)
    requires PlainText(c) && PlainText(lc) && PlainText(d) && PlainText(ld)
    requires PlainText(e) && PlainText(le) && PlainText(f)
    ensures Printable(Shaped(a, la, b, lb, c, lc, d, ld, e, le, f))
  {
    var inner := Node(Some(e), Some(le), Present([Leaf(c, lc), Leaf(d, ld)]));
    assert Printable(Leaf(a, la)) && Printable(Leaf(b, lb));
    assert Printable(Leaf(c, lc)) && Printable(Leaf(d, ld));
    assert Printable(inner);
  }

  lemma ShapedText(a: string, la: string, b: string, lb: string, c: string, lc: string,
                   d: string, ld: string, e: string, le: string, f: string)
    ensures Print(Shaped(a, la, b, lb, c, lc, d, ld, e, le, f))
      == "(" + ((a + ":" + la) + "," + (b + ":" + lb) + "," + ("(" + ((c + ":" + lc) + "," + (d + ":" + ld)) + ")" + e + (":" + le))) + ")" + f + ";"
  {
    var t := Shaped(a, la, b, lb, c, lc, d, ld, e, le, f);
    var inner := Node(Some(e), Some(le), Present([Leaf(c, lc), Leaf(d, ld)]));
    var si := "(" + ((c + ":" + lc) + "," + (d + ":" + ld)) + ")" + e + (":" + le);
    CherryText(c, lc, d, ld, e, le);
    var sc := (a + ":" + la) + "," + (b + ":" + lb) + "," + si;
    assert Concat(EmitAll(t.branchset.nodes)) == sc by {
      LeafText(a, la);
      LeafText(b, lb);
      ThreeText(Leaf(a, la), Leaf(b, lb), inner);
      assert t.branchset.nodes == [Leaf(a, la), Leaf(b, lb), inner];
    }
    InnerText(t);
    assert Concat(Emit(t)) == "(" + sc + ")" + f + "";
    assert "(" + sc + ")" + f + "" == "(" + sc + ")" + f;
  }

  /** The text of an internal node with two leaves. */
  lemma CherryText(c: string, lc: string, d: string, ld: string, e: string, le: string)
    ensures Concat(Emit(Node(Some(e), Some(le), Present([Leaf(c, lc), Leaf(d, ld)]))))
      == "(" + ((c + ":" + lc) + "," + (d + ":" + ld)) + ")" + e + (":" + le)
  {
    var inner := Node(Some(e), Some(le), Present([Leaf(c, lc), Leaf(d, ld)]));
    LeafText(c, lc);
    LeafText(d, ld);
    TwoText(Leaf(c, lc), Leaf(d, ld));
    InnerText(inner);
  }

  lemma LeafText(name: string, length: string)
    ensures Concat(Emit(Leaf(name, length))) == name + ":" + length
  {
    assert Emit(Leaf(name, length)) == [name, ":", length];
    TripleText(name, ":", length);
  }

  lemma TripleText(x: string, y: string, z: string)
    ensures Concat([x, y, z]) == x + y + z
  {
    assert [x, y, z][1..] == [y, z];
    assert [y, z][1..] == [z];
    assert [z][1..] == [];
    assert Concat([z]) == z + Concat([]);
    assert Concat([y, z]) == y + Concat([z]);
    assert Concat([x, y, z]) == x + Concat([y, z]);
  }

  lemma TwoText(x: Node, y: Node)
    ensures Concat(EmitAll([x, y])) == Concat(Emit(x)) + "," + Concat(Emit(y))
  {
    assert [x, y][1..] == [y];
    assert EmitAll([x, y]) == Emit(x) + [","] + Emit(y);
    Concat3(Emit(x), Emit(y));
  }

  lemma ThreeText(x: Node, y: Node, z: Node)
    ensures Concat(EmitAll([x, y, z])) == Concat(Emit(x)) + "," + Concat(Emit(y)) + "," + Concat(Emit(z))
  {
    assert [x, y, z][1..] == [y, z];
    assert EmitAll([x, y, z]) == Emit(x) + [","] + EmitAll([y, z]);
    Concat3(Emit(x), EmitAll([y, z]));
    TwoText(y, z);
  }

  lemma InnerText(n: Node)
    requires n.branchset.Present? && n.name.Some?
    ensures Concat(Emit(n)) == "(" + Concat(EmitAll(n.branchset.nodes)) + ")" + n.name.value
      + (if n.length.Some? then ":" + n.length.value else "")
  {
    assert Emit(n) == [""] + Enclose(n.branchset.nodes) + LabelTokens(n);
    Enclosed(EmitAll(n.branchset.nodes), LabelTokens(n));
    if n.length.Some? {
      assert LabelTokens(n) == [n.name.value, ":", n.length.value];
      TripleText(n.name.value, ":", n.length.value);
    } else {
      assert LabelTokens(n) == [n.name.value];
      assert [n.name.value][1..] == [];
    }
  }

  /** Text of two token runs joined by `,`. */
  lemma Concat3(x: seq<string>, y: seq<string>)
    ensures Concat(x + [","] + y) == Concat(x) + "," + Concat(y)
  {
    ConcatAppend(x + [","], y);
    ConcatAppend(x, [","]);
  }

  /** Text of an internal node's tokens. */
  lemma Enclosed(inner: seq<string>, after: seq<string>)
    ensures Concat([""] + ["("] + inner + [")"] + after) == "(" + Concat(inner) + ")" + Concat(after)
    ensures [""] + ["("] + inner + [")"] + after == [""] + (["("] + inner + [")"]) + after
  {
    ConcatAppend([""] + ["("] + inner + [")"], after);
    ConcatAppend([""] + ["("] + inner, [")"]);
    ConcatAppend([""] + ["("], inner);
  }

  // ---------------------------------------------------------------------------
  // Smaller examples

  /** `(,,(,));`: every node gets the empty name. */
  function Unnamed(): Node {
    SameName("")
  }

  lemma UnnamedParse()
    ensures Parse("(,,(,));") == Success(Unnamed())
  {
    assert PlainText("");
    SameNameParse("");
    UnnamedAssembled();
  }

  lemma UnnamedAssembled()
    ensures var x := "";
      "(" + (x + "," + x + "," + ("(" + (x + "," + x) + ")" + x + "")) + ")" + x + "" + ";" == "(,,(,));"
  {
  }

  /** The tree of `(,,(,));` with every name `x`. */
  function SameName(x: string): Node {
    var leaf := Node(Some(x), None, Absent);
    Node(Some(x), None, Present([leaf, leaf, Node(Some(x), None, Present([leaf, leaf]))]))
  }

  /** The shape of `(,,(,));` with every node named `x` parses back. */
  lemma SameNameParse(x: string)
    requires PlainText(x)
    ensures Parse("(" + (x + "," + x + "," + ("(" + (x + "," + x) + ")" + x + "")) + ")" + x + "" + ";")
      == Success(SameName(x))
  {
    var leaf := Node(Some(x), None, Absent);
    assert Printable(SameName(x)) by {
      assert Printable(leaf);
      assert Printable(Node(Some(x), None, Present([leaf, leaf])));
      assert SameName(x).branchset.nodes == [leaf, leaf, Node(Some(x), None, Present([leaf, leaf]))];
    }
    ParsePrint(SameName(x));
    SameNameText(x);
  }

  lemma SameNameText(x: string)
    ensures Print(SameName(x))
      == "(" + (x + "," + x + "," + ("(" + (x + "," + x) + ")" + x + "")) + ")" + x + "" + ";"
  {
    var leaf := Node(Some(x), None, Absent);
    var inner := Node(Some(x), None, Present([leaf, leaf]));
    assert Concat(Emit(leaf)) == x by {
      assert Emit(leaf) == [x];
      assert Concat([x]) == x + Concat([]);
    }
    assert Concat(Emit(inner)) == "(" + (x + "," + x) + ")" + x + "" by {
      TwoText(leaf, leaf);
      InnerText(inner);
    }
    assert SameName(x).branchset.nodes == [leaf, leaf, inner];
    ThreeText(leaf, leaf, inner);
    InnerText(SameName(x));
  }

  /** Text without a structural character, whitespace-only text included, is
      one literal at index 0, which is never a name; the result is an empty root. */
  lemma NoDelimiterParse(s: string)
    requires IsLiteral(s)
    ensures Parse(s) == Success(Fresh)
  {
    NoDelimiterTokenize(s);
    LiteralStep(Start, [s], 0);
  }

  /** The empty string parses to an empty root. */
  lemma EmptyParse()
    ensures Parse("") == Success(Fresh)
  {
    assert IsLiteral("");
    NoDelimiterParse("");
  }

  /** Whitespace alone parses to an empty root too. */
  lemma BlankParse()
    ensures Parse(" \t\n ") == Success(Fresh)
  {
    assert IsLiteral(" \t\n ");
    NoDelimiterParse(" \t\n ");
  }

  /** `A:1.5;`: a lone leaf keeps its length but not its name, because the
      first token is never read as a name. */
  lemma LeafParse()
    ensures Parse("A:1.5;") == Success(Node(None, Some("1.5"), Absent))
  {
    assert PlainText("A") && PlainText("1.5");
    LoneLeafParse("A", "1.5");
    assert "A" + ":" + "1.5" + ";" == "A:1.5;";
  }

  lemma LoneLeafParse(a: string, l: string)
    requires PlainText(a) && PlainText(l)
    ensures Parse(a + ":" + l + ";") == Success(Node(None, Some(l), Absent))
  {
    var t := Leaf(a, l);
    assert Printable(t);
    ParsePrint(t);
    LeafText(a, l);
  }

  /** `A,B;`: a comma outside any branchset fails. */
  lemma CommaParse()
    ensures Parse("A,B;") == Failure(CommaOutsideBranchset)
  {
    assert PlainText("A") && PlainText("B");
    TopLevelCommaParse("A", "B");
    assert "A" + "," + "B" + ";" == "A,B;";
  }

  lemma TopLevelCommaParse(a: string, b: string)
    requires PlainText(a) && PlainText(b)
    ensures Parse(a + "," + b + ";") == Failure(CommaOutsideBranchset)
  {
    var ts := [a, ",", b, ";", ""];
    assert Alternates(ts) by {
      assert IsDelimiterToken(",") && IsDelimiterToken(";");
    }
    assert Concat(ts) == a + "," + b + ";" by {
      FiveText(a, ",", b, ";", "");
    }
    TokenizeConcat(ts);
    LiteralStep(Start, ts, 0);
    assert Run(Start, ts, 0) == Run(Start, ts, 1);
  }

  /** `(A:0.1));`: one `)` too many fails. */
  lemma CloseParse()
    ensures Parse("(A:0.1));") == Failure(UnmatchedClose)
  {
    assert PlainText("A") && PlainText("0.1");
    ExtraCloseParse("A", "0.1");
    assert "(" + "A" + ":" + "0.1" + "));" == "(A:0.1));";
  }

  lemma ExtraCloseParse(a: string, l: string)
    requires PlainText(a) && PlainText(l)
    ensures Parse("(" + a + ":" + l + "));") == Failure(UnmatchedClose)
  {
    var ts := OpenLeafTokens(a, l) + [")", "", ")", "", ";", ""];
    ExtraCloseTokens(a, l);
    TokenizeConcat(ts);
    ExtraCloseBuild(ts, a, l);
  }

  lemma ExtraCloseTokens(a: string, l: string)
    requires PlainText(a) && PlainText(l)
    ensures var ts := OpenLeafTokens(a, l) + [")", "", ")", "", ";", ""];
      Alternates(ts) && (forall i :: 0 <= i < |ts| ==> Unpadded(ts[i]))
      && Concat(ts) == "(" + a + ":" + l + "));"
  {
    var ts := OpenLeafTokens(a, l) + [")", "", ")", "", ";", ""];
    OpenLeafTokensShape(a, l);
    assert Alternates(ts) && forall i :: 0 <= i < |ts| ==> Unpadded(ts[i]) by {
      assert IsDelimiterToken(")") && IsDelimiterToken(";");
    }
    ConcatAppend(OpenLeafTokens(a, l), [")", "", ")", "", ";", ""]);
    assert Concat([")", "", ")", "", ";", ""]) == "));" by {
      FiveText(")", "", ")", "", ";");
      assert [")", "", ")", "", ";", ""] == [")", "", ")", "", ";"] + [""];
      ConcatAppend([")", "", ")", "", ";"], [""]);
      assert Concat([""]) == "" + Concat([]);
    }
  }

  lemma ExtraCloseBuild(ts: seq<string>, a: string, l: string)
    requires PlainText(a) && PlainText(l)
    requires ts == OpenLeafTokens(a, l) + [")", "", ")", "", ";", ""]
    ensures Build(ts) == Failure(UnmatchedClose)
  {
    var st := State(Leaf(a, l), [Frame(None, None, [])]);
    assert ts[..5] == OpenLeafTokens(a, l);
    RunOpenLeaf(ts, a, l);
    var closed := Close(st);
    assert closed == State(Node(None, None, Present([Leaf(a, l)])), []);
    assert Run(st, ts, 5) == Run(closed, ts, 6) by {
      CloseStep(st, ts, 5);
    }
    var named := closed.(current := closed.current.(name := Some("")));
    assert Run(closed, ts, 6) == Run(named, ts, 7) by {
      LiteralStep(closed, ts, 6);
      StepRun(closed, ts, 6, named);
    }
    assert Step(named, ts, 7) == Failure(UnmatchedClose);
  }

  /** `(A:0.1;`: without its `)` the text gives the innermost open node, not the root. */
  lemma UnclosedParse()
    ensures Parse("(A:0.1;") == Success(Leaf("A", "0.1"))
  {
    assert PlainText("A") && PlainText("0.1");
    UnclosedLeafParse("A", "0.1");
    assert "(" + "A" + ":" + "0.1" + ";" == "(A:0.1;";
  }

  lemma UnclosedLeafParse(a: string, l: string)
    requires PlainText(a) && PlainText(l)
    ensures Parse("(" + a + ":" + l + ";") == Success(Leaf(a, l))
  {
    var ts := OpenLeafTokens(a, l) + [";", ""];
    assert ts[..5] == OpenLeafTokens(a, l);
    assert Alternates(ts) && forall i :: 0 <= i < |ts| ==> Unpadded(ts[i]) by {
      OpenLeafTokensShape(a, l);
      assert IsDelimiterToken(";");
    }
    assert Concat(ts) == "(" + a + ":" + l + ";" by {
      OpenLeafTokensShape(a, l);
      ConcatAppend(OpenLeafTokens(a, l), [";", ""]);
      assert Concat([";", ""]) == ";";
    }
    TokenizeConcat(ts);
    var st := State(Leaf(a, l), [Frame(None, None, [])]);
    RunOpenLeaf(ts, a, l);
    assert Run(st, ts, 5) == Run(st, ts, 6) by {
      SeparatorStep(st, ts, 5);
    }
    assert Run(st, ts, 6) == Run(st, ts, 7) by {
      LiteralStep(st, ts, 6);
    }
  }

  /** The tokens of `(a:l`. */
  function OpenLeafTokens(a: string, l: string): seq<string> {
    ["", "(", a, ":", l]
  }

  lemma OpenLeafTokensShape(a: string, l: string)
    requires PlainText(a) && PlainText(l)
    ensures var ts := OpenLeafTokens(a, l);
      Concat(ts) == "(" + a + ":" + l
      && |ts| == 5 && ts[0] == "" && IsDelimiterToken(ts[1]) && ts[2] == a && IsDelimiterToken(ts[3]) && ts[4] == l
      && Unpadded(ts[1]) && Unpadded(ts[3])
  {
    FiveText("", "(", a, ":", l);
  }

  /** `(a:l` opens one branchset and fills its only child with `a:l`. */
  lemma RunOpenLeaf(ts: seq<string>, a: string, l: string)
    requires PlainText(a) && PlainText(l)
    requires |ts| >= 5 && ts[..5] == OpenLeafTokens(a, l)
    ensures Run(Start, ts, 0) == Run(State(Leaf(a, l), [Frame(None, None, [])]), ts, 5)
  {
    assert ts[0] == "" && ts[1] == "(" by {
      assert ts[..5][0] == ts[0] && ts[..5][1] == ts[1];
    }
    var open := State(Fresh, [Frame(None, None, [])]);
    assert Run(Start, ts, 0) == Run(Start, ts, 1) by {
      LiteralStep(Start, ts, 0);
    }
    assert Run(Start, ts, 1) == Run(open, ts, 2) by {
      assert Start.ancestors + [Frame(None, None, [])] == [Frame(None, None, [])];
      OpenStep(Start, ts, 1);
    }
    RunLeafLabel(ts, a, l);
  }

  /** The leaf's label after `(`: `a`, `:`, `l`. */
  lemma RunLeafLabel(ts: seq<string>, a: string, l: string)
    requires PlainText(a) && PlainText(l)
    requires |ts| >= 5 && ts[..5] == OpenLeafTokens(a, l)
    ensures Run(State(Fresh, [Frame(None, None, [])]), ts, 2) == Run(State(Leaf(a, l), [Frame(None, None, [])]), ts, 5)
  {
    assert ts[1] == "(" && ts[2] == a && ts[3] == ":" && ts[4] == l by {
      assert ts[..5][1] == ts[1] && ts[..5][2] == ts[2];
      assert ts[..5][3] == ts[3] && ts[..5][4] == ts[4];
    }
    var open := State(Fresh, [Frame(None, None, [])]);
    var named := State(Node(Some(a), None, Absent), [Frame(None, None, [])]);
    var done := State(Leaf(a, l), [Frame(None, None, [])]);
    assert Run(open, ts, 2) == Run(named, ts, 3) by {
      LiteralStep(open, ts, 2);
      StepRun(open, ts, 2, named);
    }
    assert Run(named, ts, 3) == Run(named, ts, 4) by {
      assert Step(named, ts, 3) == Success(named);
    }
    assert Run(named, ts, 4) == Run(done, ts, 5) by {
      LiteralStep(named, ts, 4);
      StepRun(named, ts, 4, done);
    }
  }

  lemma FiveText(p: string, q: string, r: string, s: string, t: string)
    ensures Concat([p, q, r, s, t]) == p + q + r + s + t
  {
    var ts := [p, q, r, s, t];
    assert ts[1..] == [q, r, s, t] && ts[1..][1..] == [r, s, t];
    assert ts[1..][1..][1..] == [s, t] && ts[1..][1..][1..][1..] == [t];
    assert [t][1..] == [];
    assert Concat([t]) == t + Concat([]);
    assert Concat([s, t]) == s + Concat([t]);
    assert Concat([r, s, t]) == r + Concat([s, t]);
    assert Concat([q, r, s, t]) == q + Concat([r, s, t]);
  }
}

=== FILE: printer.dfy ===
/** A reference printer for the trees the parser builds, used to state what
    `Parse` recovers: printing a tree in Newick notation and parsing the text
    gives the tree back. The printer is not part of newick.js; it is the
    inverse the parser is checked against. */
module Printer {
  import opened Wrappers
  import opened Tree
  import opened Tokenizer
  import opened Builder

  /** Text that prints and tokenizes unchanged: no structural character and
      no whitespace at either end. */
  ghost predicate PlainText(t: string) {
    IsLiteral(t) && Unpadded(t)
  }

  /** A tree the printer can write out faithfully: every node has a name,
      names and lengths are plain text, and every branchset is non-empty. */
  ghost predicate Printable(n: Node)
    decreases n
  {
    n.name.Some? && PlainText(n.name.value)
    && (n.length.Some? ==> PlainText(n.length.value))
    && match n.branchset
       case Absent => true
       case Present(cs) => |cs| > 0 && forall i :: 0 <= i < |cs| ==> Printable(cs[i])
  }

  function NameText(n: Node): string {
    if n.name.Some? then n.name.value else ""
  }

  /** `:length`, when there is a length. */
  function LengthTokens(length: Option<string>): seq<string> {
    match length
    case None => []
    case Some(l) => [":", l]
  }

  /** The tokens after a node's children: its name and optional length. */
  function LabelTokens(n: Node): seq<string> {
    [NameText(n)] + LengthTokens(n.length)
  }

  /** The tokens of a node: `(children)name:length` or `name:length`. An
      internal node starts with the empty literal before its `(`. */
  function Emit(n: Node): seq<string>
    decreases n, 2
  {
    match n.branchset
    case Absent => LabelTokens(n)
    case Present(cs) => [""] + Enclose(cs) + LabelTokens(n)
  }

  /** `(`, the children, `)`. */
  function Enclose(cs: seq<Node>): seq<string>
    decreases cs, 1
  {
    ["("] + EmitAll(cs) + [")"]
  }

  /** The tokens of a list of siblings, separated by `,`. */
  function EmitAll(cs: seq<Node>): seq<string>
    decreases cs, 0
  {
    if |cs| == 0 then [""]
    else if |cs| == 1 then Emit(cs[0])
    else Emit(cs[0]) + [","] + EmitAll(cs[1..])
  }

  /** Newick text for a tree: the node followed by `;`. */
  function Print(t: Node): string {
    Concat(Emit(t)) + ";"
  }

  // ---------------------------------------------------------------------------
  // The printed tokens alternate and trimming leaves them as they are

  ghost predicate Clean(ts: seq<string>) {
    Alternates(ts) && forall i :: 0 <= i < |ts| ==> Unpadded(ts[i])
  }

  lemma CleanJoin(a: seq<string>, d: string, b: seq<string>)
    requires Clean(a) && Clean(b) && IsDelimiterToken(d) && Unpadded(d)
    ensures Clean(a + [d] + b)
  {
    var r := a + [d] + b;
    forall i | 0 <= i < |r|
      ensures (if i % 2 == 0 then IsLiteral(r[i]) else IsDelimiterToken(r[i])) && Unpadded(r[i])
    {
      if i > |a| {
        assert r[i] == b[i - |a| - 1];
      }
    }
  }

  lemma CleanLabel(n: Node)
    requires n.name.Some? ==> PlainText(n.name.value)
    requires n.length.Some? ==> PlainText(n.length.value)
    ensures Clean(LabelTokens(n))
  {
    assert PlainText(NameText(n));
    if n.length.Some? {
      assert LabelTokens(n) == [NameText(n)] + [":"] + [n.length.value];
      CleanJoin([NameText(n)], ":", [n.length.value]);
    }
  }

  lemma {:induction false} CleanEmit(n: Node)
    requires Printable(n)
    ensures Clean(Emit(n))
    decreases n, 1
  {
    CleanLabel(n);
    match n.branchset
    case Absent =>
    case Present(cs) =>
      CleanEmitAll(cs);
      CleanJoin([""], "(", EmitAll(cs));
      CleanJoin([""] + ["("] + EmitAll(cs), ")", LabelTokens(n));
      assert [""] + ["("] + EmitAll(cs) + [")"] + LabelTokens(n) == Emit(n);
  }

  lemma {:induction false} CleanEmitAll(cs: seq<Node>)
    requires |cs| > 0 && forall i :: 0 <= i < |cs| ==> Printable(cs[i])
    ensures Clean(EmitAll(cs))
    decreases cs, 0
  {
    CleanEmit(cs[0]);
    if |cs| > 1 {
      CleanEmitAll(cs[1..]);
      CleanJoin(Emit(cs[0]), ",", EmitAll(cs[1..]));
    }
  }

  lemma {:induction false} ConcatAppend(a: seq<string>, b: seq<string>)
    ensures Concat(a + b) == Concat(a) + Concat(b)
    decreases |a|
  {
    if |a| > 0 {
      assert (a + b)[1..] == a[1..] + b;
      ConcatAppend(a[1..], b);
    } else {
      assert a + b == b;
    }
  }

  /** The printed text tokenizes to exactly the printed tokens, then `;` and
      the empty literal after it. */
  lemma TokenizePrint(t: Node)
    requires Printable(t)
    ensures Tokenize(Print(t)) == Emit(t) + [";", ""]
  {
    var ts := Emit(t) + [";", ""];
    CleanEmit(t);
    CleanJoin(Emit(t), ";", [""]);
    assert Emit(t) + [";"] + [""] == ts;
    ConcatAppend(Emit(t), [";", ""]);
    assert Concat([";", ""]) == ";";
    assert Concat(ts) == Print(t);
    TokenizeConcat(ts);
  }

  // ---------------------------------------------------------------------------
  // Running the builder over printed tokens

  /** The loop over the token list `ts`, given the token before the first one
      (`None` at the very start). `RunIsRunFrom` ties it to `Run`. */
  function RunFrom(st: State, ts: seq<string>, previous: Option<string>): Result<State, ParseError>
    decreases |ts|
  {
    if |ts| == 0 then Success(st)
    else
      match Apply(st, previous, ts[0])
      case Failure(e) => Failure(e)
      case Success(st') => RunFrom(st', ts[1..], Some(ts[0]))
  }

  /** The loop from index `i` is the loop over the tokens from `i` on. */
  lemma {:induction false} RunIsRunFrom(st: State, tokens: seq<string>, i: nat)
    requires i <= |tokens|
    ensures Run(st, tokens, i) == RunFrom(st, tokens[i..], if i == 0 then None else Some(tokens[i - 1]))
    decreases |tokens| - i
  {
    if i < |tokens| {
      assert tokens[i..][0] == tokens[i] && tokens[i..][1..] == tokens[i + 1..];
      match Step(st, tokens, i)
      case Failure(e) =>
      case Success(st') =>
        RunIsRunFrom(st', tokens, i + 1);
    }
  }

  /** Running over `a + b` is running over `a`, then over `b` after the last token of `a`. */
  lemma {:induction false} RunFromAppend(st: State, st': State, a: seq<string>, b: seq<string>, p: Option<string>)
    requires |a| > 0 && RunFrom(st, a, p) == Success(st')
    ensures RunFrom(st, a + b, p) == RunFrom(st', b, Some(a[|a| - 1]))
    decreases |a|
  {
    assert (a + b)[0] == a[0] && (a + b)[1..] == a[1..] + b;
    var st1 := Apply(st, p, a[0]).value;
    if |a| > 1 {
      RunFromAppend(st1, st', a[1..], b, Some(a[0]));
    } else {
      assert a[1..] + b == b;
    }
  }

  /** One token. */
  lemma RunFromOne(st: State, t: string, p: Option<string>)
    ensures RunFrom(st, [t], p) == Apply(st, p, t)
  {
    assert [t][1..] == [];
  }

  /** A label: the name is set when a name may follow (never as the very first
      token), and the length is set when there is one. */
  lemma LabelFrom(st: State, n: Node, p: Option<string>)
    requires n.name.Some? ==> PlainText(n.name.value)
    requires n.length.Some? ==> PlainText(n.length.value)
    requires p == None || NameFollows(p)
    requires st.current.length == None
    ensures RunFrom(st, LabelTokens(n), p) ==
      Success(st.(current := st.current.(name := if p == None then st.current.name else Some(NameText(n)),
                                         length := n.length)))
  {
    var name := NameText(n);
    LiteralIsNoToken(name);
    var st1 := st.(current := st.current.(name := if p == None then st.current.name else Some(name)));
    assert Apply(st, p, name) == Success(st1);
    RunFromOne(st, name, p);
    if n.length.Some? {
      var l := n.length.value;
      LiteralIsNoToken(l);
      var st2 := st1.(current := st1.current.(length := n.length));
      assert LabelTokens(n) == [name] + [":", l];
      RunFromAppend(st, st1, [name], [":", l], p);
      assert Apply(st1, Some(name), ":") == Success(st1);
      RunFromOne(st1, ":", Some(name));
      RunFromAppend(st1, st1, [":"], [l], Some(name));
      assert [":"] + [l] == [":", l];
      assert Apply(st1, Some(":"), l) == Success(st2);
      RunFromOne(st1, l, Some(":"));
    } else {
      assert LabelTokens(n) == [name];
    }
  }

  /** A non-root node, starting just after `(` or `,` with a fresh node to
      fill: the builder fills that node with exactly `n`. */
  lemma {:induction false} EmitFrom(st: State, n: Node, p: Option<string>)
    requires Printable(n) && NameFollows(p) && st.current == Fresh
    ensures |Emit(n)| > 0
    ensures RunFrom(st, Emit(n), p) == Success(st.(current := n))
    decreases n, 2
  {
    match n.branchset
    case Absent =>
      LabelFrom(st, n, p);
    case Present(cs) =>
      var st1 := st.(current := Fresh.(name := Some("")));
      var st2 := st1.(current := st1.current.(branchset := Present(cs)));
      var enclose, tail := Enclose(cs), LabelTokens(n);
      assert Emit(n) == [""] + (enclose + tail);
      assert Apply(st, p, "") == Success(st1) by {
        LiteralIsNoToken("");
      }
      RunFromOne(st, "", p);
      RunFromAppend(st, st1, [""], enclose + tail, p);
      EncloseFrom(st1, cs, Some(""));
      RunFromAppend(st1, st2, enclose, tail, Some(""));
      LabelFrom(st2, n, Some(")"));
      assert st2.(current := st2.current.(name := Some(NameText(n)), length := n.length)) == st.(current := n);
  }

  /** `(`, the children, `)`: the node being filled gets exactly these children,
      keeps its name and length, and the stack is back where it was. */
  lemma {:induction false} EncloseFrom(st: State, cs: seq<Node>, p: Option<string>)
    requires |cs| > 0 && forall k :: 0 <= k < |cs| ==> Printable(cs[k])
    ensures |Enclose(cs)| > 0 && Enclose(cs)[|Enclose(cs)| - 1] == ")"
    ensures RunFrom(st, Enclose(cs), p) == Success(st.(current := st.current.(branchset := Present(cs))))
    decreases cs, 1
  {
    var inner := EmitAll(cs);
    var f := Frame(st.current.name, st.current.length, []);
    var st1 := Open(st);
    assert st1 == State(Fresh, st.ancestors + [f]);
    var filled := State(Last(cs), st.ancestors + [f.(earlier := f.earlier + cs[..|cs| - 1])]);
    assert Enclose(cs) == ["("] + (inner + [")"]);
    RunFromOne(st, "(", p);
    RunFromAppend(st, st1, ["("], inner + [")"], p);
    EmitAllFrom(st1, cs, Some("("));
    CloseAfterChildren(st.ancestors, f, cs);
    RunFromAppend(st1, filled, inner, [")"], Some("("));
    RunFromOne(filled, ")", Some(inner[|inner| - 1]));
    assert f.earlier + cs == cs;
  }

  /** Siblings separated by `,`, starting just after `(` or `,` with a fresh
      node to fill: the last sibling is being filled and the others are the
      finished children of the top frame. */
  lemma {:induction false} EmitAllFrom(st: State, cs: seq<Node>, p: Option<string>)
    requires |cs| > 0 && forall k :: 0 <= k < |cs| ==> Printable(cs[k])
    requires NameFollows(p) && st.current == Fresh && |st.ancestors| > 0
    ensures |EmitAll(cs)| > 0
    ensures var n, top := |st.ancestors|, Last(st.ancestors);
      RunFrom(st, EmitAll(cs), p) ==
      Success(State(Last(cs), st.ancestors[..n - 1] + [top.(earlier := top.earlier + cs[..|cs| - 1])]))
    decreases cs, 0
  {
    var n, top := |st.ancestors|, Last(st.ancestors);
    EmitFrom(st, cs[0], p);
    if |cs| == 1 {
      assert top.earlier + cs[..0] == top.earlier;
      assert st.ancestors == st.ancestors[..n - 1] + [top];
    } else {
      var first, rest := Emit(cs[0]), EmitAll(cs[1..]);
      var st1 := st.(current := cs[0]);
      var st2 := State(Fresh, st.ancestors[..n - 1] + [top.(earlier := top.earlier + [cs[0]])]);
      assert EmitAll(cs) == first + ([","] + rest);
      RunFromAppend(st, st1, first, [","] + rest, p);
      CommaFrom(st1, rest, Some(first[|first| - 1]));
      assert Sibling(st1) == st2;
      EmitAllFrom(st2, cs[1..], Some(","));
      SiblingThenRest(st.ancestors, cs);
      assert Last(cs[1..]) == Last(cs);
    }
  }

  /** `,` inside a branchset finishes the current node and starts its next sibling. */
  lemma CommaFrom(st: State, ts: seq<string>, p: Option<string>)
    requires |st.ancestors| > 0
    ensures RunFrom(st, [","] + ts, p) == RunFrom(Sibling(st), ts, Some(","))
  {
    RunFromOne(st, ",", p);
    RunFromAppend(st, Sibling(st), [","], ts, p);
  }

  /** One successful step of the loop. */
  lemma StepRun(st: State, tokens: seq<string>, j: nat, st': State)
    requires j < |tokens| && Step(st, tokens, j) == Success(st')
    ensures Run(st, tokens, j) == Run(st', tokens, j + 1)
  {
  }

  /** `(` opens a branchset. */
  lemma OpenStep(st: State, tokens: seq<string>, j: nat)
    requires j < |tokens| && tokens[j] == "("
    ensures Run(st, tokens, j) == Run(Open(st), tokens, j + 1)
  {
    assert Step(st, tokens, j) == Success(Open(st));
  }

  /** `)` closes the innermost open branchset. */
  lemma CloseStep(st: State, tokens: seq<string>, j: nat)
    requires j < |tokens| && tokens[j] == ")" && |st.ancestors| > 0
    ensures Run(st, tokens, j) == Run(Close(st), tokens, j + 1)
  {
    assert Step(st, tokens, j) == Success(Close(st));
  }

  /** Closing a branchset whose last child is being filled rebuilds the
      ancestor with all of its children. */
  lemma CloseAfterChildren(ancestors: seq<Frame>, f: Frame, cs: seq<Node>)
    requires |cs| > 0
    ensures var anc := ancestors + [f];
      anc[..|anc| - 1] + [Last(anc).(earlier := Last(anc).earlier + cs[..|cs| - 1])]
        == ancestors + [f.(earlier := f.earlier + cs[..|cs| - 1])]
    ensures Close(State(Last(cs), ancestors + [f.(earlier := f.earlier + cs[..|cs| - 1])]))
      == State(Node(f.name, f.length, Present(f.earlier + cs)), ancestors)
  {
    var anc := ancestors + [f];
    assert anc[..|anc| - 1] == ancestors;
    assert f.earlier + cs[..|cs| - 1] + [Last(cs)] == f.earlier + cs;
    var anc2 := ancestors + [f.(earlier := f.earlier + cs[..|cs| - 1])];
    assert anc2[..|anc2| - 1] == ancestors;
  }

  /** Appending the first sibling and then the others but the last is
      appending all but the last. */
  lemma SiblingThenRest(ancestors: seq<Frame>, cs: seq<Node>)
    requires |ancestors| > 0 && |cs| > 1
    ensures var n, top := |ancestors|, Last(ancestors);
      var anc2 := ancestors[..n - 1] + [top.(earlier := top.earlier + [cs[0]])];
      var top2 := Last(anc2);
      |anc2| == n && anc2[..n - 1] + [top2.(earlier := top2.earlier + cs[1..][..|cs[1..]| - 1])]
        == ancestors[..n - 1] + [top.(earlier := top.earlier + cs[..|cs| - 1])]
  {
    var n, top := |ancestors|, Last(ancestors);
    var anc2 := ancestors[..n - 1] + [top.(earlier := top.earlier + [cs[0]])];
    assert anc2[..n - 1] == ancestors[..n - 1];
    assert [cs[0]] + cs[1..][..|cs[1..]| - 1] == cs[..|cs| - 1];
    assert top.earlier + [cs[0]] + cs[1..][..|cs[1..]| - 1] == top.earlier + cs[..|cs| - 1];
  }

  /** What parsing a printed tree gives: the tree itself, except that a root
      without children loses its name, because the first token is never a name. */
  function Reparsed(t: Node): Node {
    if t.branchset.Absent? then t.(name := None) else t
  }

  /** Round trip: parsing the printed text of a printable tree gives the tree
      back (up to the root-leaf name, see `Reparsed`), and never fails. */
  lemma ParsePrint(t: Node)
    requires Printable(t)
    ensures Parse(Print(t)) == Success(Reparsed(t))
  {
    TokenizePrint(t);
    var tokens := Emit(t) + [";", ""];
    var done := State(Reparsed(t), []);
    RunIsRunFrom(Start, tokens, 0);
    assert tokens[0..] == tokens;
    RootFrom(t);
    RunFromAppend(Start, done, Emit(t), [";", ""], None);
    CleanEmit(t);
    TrailerFrom(done, Emit(t));
  }

  /** The tokens of a whole printed tree take the start state to the
      reparsed tree with an empty stack. */
  lemma RootFrom(t: Node)
    requires Printable(t)
    ensures |Emit(t)| > 0
    ensures RunFrom(Start, Emit(t), None) == Success(State(Reparsed(t), []))
  {
    match t.branchset
    case Absent =>
      LabelFrom(Start, t, None);
    case Present(cs) =>
      var st2 := State(Fresh.(branchset := Present(cs)), []);
      var enclose, tail := Enclose(cs), LabelTokens(t);
      assert Emit(t) == [""] + (enclose + tail);
      assert Apply(Start, None, "") == Success(Start) by {
        LiteralIsNoToken("");
      }
      RunFromOne(Start, "", None);
      RunFromAppend(Start, Start, [""], enclose + tail, None);
      EncloseFrom(Start, cs, Some(""));
      RunFromAppend(Start, st2, enclose, tail, Some(""));
      LabelFrom(st2, t, Some(")"));
      assert st2.current.(name := Some(NameText(t)), length := t.length) == t;
  }

  /** The closing `;` and the empty literal after it change nothing. */
  lemma TrailerFrom(st: State, ts: seq<string>)
    requires Clean(ts) && |ts| > 0
    ensures RunFrom(st, [";", ""], Some(ts[|ts| - 1])) == Success(st)
  {
    var last := ts[|ts| - 1];
    assert IsLiteral(last);
    LiteralIsNoToken(last);
    assert Apply(st, Some(last), ";") == Success(st);
    RunFromOne(st, ";", Some(last));
    RunFromAppend(st, st, [";"], [""], Some(last));
    assert [";"] + [""] == [";", ""];
    LiteralIsNoToken("");
    assert Apply(st, Some(";"), "") == Success(st);
    RunFromOne(st, "", Some(";"));
  }
}

=== FILE: tokenizer.dfy ===
/** The tokenizer of newick.js: a regular-expression split at the structural
    characters that keeps each delimiter as a token and swallows the whitespace
    around it, written as an explicit left-to-right character scan followed by
    whitespace trimming. */
module Tokenizer {

  /** The five structural characters the regular expression splits on. */
  predicate IsDelimiter(c: char) {
    c == '(' || c == ')' || c == ',' || c == ':' || c == ';'
  }

  /** The characters `\s` matches in a JavaScript regular expression
      (WhiteSpace and LineTerminator of ECMAScript). */
  predicate IsSpace(c: char) {
    c == '\t' || c == '\n' || c == '\U{000B}' || c == '\U{000C}' || c == '\r' || c == ' '
    || c == '\U{00A0}' || c == '\U{1680}' || ('\U{2000}' <= c <= '\U{200A}')
    || c == '\U{2028}' || c == '\U{2029}' || c == '\U{202F}' || c == '\U{205F}'
    || c == '\U{3000}' || c == '\U{FEFF}'
  }

  ghost predicate NoSpace(t: string) {
    forall i :: 0 <= i < |t| ==> !IsSpace(t[i])
  }

  ghost predicate AllSpace(t: string) {
    forall i :: 0 <= i < |t| ==> IsSpace(t[i])
  }

  /** Text that neither starts nor ends with whitespace; `UnpaddedTrim`
      shows it is exactly the text trimming leaves as it is. */
  ghost predicate Unpadded(t: string) {
    forall i :: 0 <= i < |t| && (i == 0 || i == |t| - 1) ==> !IsSpace(t[i])
  }

  /** A literal token: any text, possibly empty, without a structural character. */
  ghost predicate IsLiteral(t: string) {
    forall i :: 0 <= i < |t| ==> !IsDelimiter(t[i])
  }

  /** A delimiter token: exactly one structural character. */
  ghost predicate IsDelimiterToken(t: string) {
    |t| == 1 && IsDelimiter(t[0])
  }

  /** The shape of every split: literal, delimiter, literal, ..., literal. */
  ghost predicate Alternates(ts: seq<string>) {
    |ts| % 2 == 1 &&
    forall i :: 0 <= i < |ts| ==> if i % 2 == 0 then IsLiteral(ts[i]) else IsDelimiterToken(ts[i])
  }

  /** The structural characters of `s`, in order. */
  function Delimiters(s: string): (d: string)
    ensures |d| <= |s|
  {
    if |s| == 0 then ""
    else (if IsDelimiter(s[0]) then [s[0]] else "") + Delimiters(s[1..])
  }

  /** Concatenation of a token sequence. */
  function Concat(ts: seq<string>): string {
    if |ts| == 0 then "" else ts[0] + Concat(ts[1..])
  }

  /** One pass over the characters: each structural character closes the
      literal read so far and becomes a token of its own. No trimming. */
  function RawSplit(s: string): (r: seq<string>)
    ensures |r| % 2 == 1
  {
    if |s| == 0 then [""]
    else
      var rest := RawSplit(s[1..]);
      if IsDelimiter(s[0]) then ["", [s[0]]] + rest
      else [[s[0]] + rest[0]] + rest[1..]
  }

  /** The scan alternates literal and delimiter tokens, one delimiter token per
      structural character of the input. */
  lemma {:induction false} RawSplitShape(s: string)
    ensures Alternates(RawSplit(s))
    ensures |RawSplit(s)| == 2 * |Delimiters(s)| + 1
    ensures forall k :: 0 <= k < |Delimiters(s)| ==> RawSplit(s)[2 * k + 1] == [Delimiters(s)[k]]
  {
    if |s| > 0 {
      RawSplitShape(s[1..]);
      var rest := RawSplit(s[1..]);
      if IsDelimiter(s[0]) {
        DelimiterFirst(s, rest);
      } else {
        assert IsLiteral([s[0]] + rest[0]);
        assert Delimiters(s) == Delimiters(s[1..]);
      }
    }
  }

  /** Text without a structural character is one literal token, itself. */
  lemma {:induction false} NoDelimiterRaw(s: string)
    requires IsLiteral(s)
    ensures RawSplit(s) == [s]
  {
    if |s| > 0 {
      assert IsLiteral(s[1..]) by {
        assert forall i :: 0 <= i < |s[1..]| ==> s[1..][i] == s[i + 1];
      }
      NoDelimiterRaw(s[1..]);
      assert [s[0]] + s[1..] == s;
    }
  }

  /** Text without a structural character tokenizes to itself, untrimmed:
      the one literal touches no delimiter. */
  lemma NoDelimiterTokenize(s: string)
    requires IsLiteral(s)
    ensures Tokenize(s) == [s]
  {
    NoDelimiterRaw(s);
  }

  /** The inductive step of `RawSplitShape` when the text starts with a structural character. */
  lemma DelimiterFirst(s: string, rest: seq<string>)
    requires |s| > 0 && IsDelimiter(s[0]) && rest == RawSplit(s[1..])
    requires Alternates(rest) && |rest| == 2 * |Delimiters(s[1..])| + 1
    requires forall k :: 0 <= k < |Delimiters(s[1..])| ==> rest[2 * k + 1] == [Delimiters(s[1..])[k]]
    ensures Alternates(RawSplit(s)) && |RawSplit(s)| == 2 * |Delimiters(s)| + 1
    ensures forall k :: 0 <= k < |Delimiters(s)| ==> RawSplit(s)[2 * k + 1] == [Delimiters(s)[k]]
  {
    var r, d := RawSplit(s), Delimiters(s);
    assert r == ["", [s[0]]] + rest;
    assert d == [s[0]] + Delimiters(s[1..]);
    AlternatesPrepend("", [s[0]], rest);
    DelimitersPrepend(r, rest, s[0], d, Delimiters(s[1..]));
  }

  /** A delimiter in front: the delimiter tokens of `rest` move up by two. */
  lemma DelimitersPrepend(r: seq<string>, rest: seq<string>, c: char, d: string, ds: string)
    requires r == ["", [c]] + rest && d == [c] + ds
    requires |rest| == 2 * |ds| + 1 && forall k :: 0 <= k < |ds| ==> rest[2 * k + 1] == [ds[k]]
    ensures |r| == 2 * |d| + 1 && forall k :: 0 <= k < |d| ==> r[2 * k + 1] == [d[k]]
  {
    forall k | 0 <= k < |d| ensures r[2 * k + 1] == [d[k]] {
      if k > 0 {
        assert r[2 * k + 1] == rest[2 * (k - 1) + 1];
        assert d[k] == ds[k - 1];
      }
    }
  }

  /** A literal and a delimiter token in front of an alternating sequence. */
  lemma AlternatesPrepend(lit: string, d: string, rest: seq<string>)
    requires IsLiteral(lit) && IsDelimiterToken(d) && Alternates(rest)
    ensures Alternates([lit, d] + rest)
  {
    var r := [lit, d] + rest;
    forall i | 0 <= i < |r| ensures if i % 2 == 0 then IsLiteral(r[i]) else IsDelimiterToken(r[i]) {
      if i >= 2 {
        assert r[i] == rest[i - 2];
        assert (i - 2) % 2 == i % 2;
      }
    }
  }

  /** Drops the whitespace at the start of `t` (the greedy `\s*` after a delimiter). */
  function TrimStart(t: string): (r: string)
    ensures |r| <= |t| && r == t[|t| - |r|..]
    ensures AllSpace(t[..|t| - |r|])
    ensures |r| > 0 ==> !IsSpace(r[0])
  {
    if |t| > 0 && IsSpace(t[0]) then TrimStart(t[1..]) else t
  }

  /** Drops the whitespace at the end of `t` (the `\s*` before a delimiter). */
  function TrimEnd(t: string): (r: string)
    ensures |r| <= |t| && r == t[..|r|]
    ensures AllSpace(t[|r|..])
    ensures |r| > 0 ==> !IsSpace(r[|r| - 1])
  {
    if |t| > 0 && IsSpace(t[|t| - 1]) then TrimEnd(t[..|t| - 1]) else t
  }

  /** Trims a raw literal on the sides where it touches a delimiter. */
  function TrimLiteral(t: string, afterDelimiter: bool, beforeDelimiter: bool): string {
    var t' := if afterDelimiter then TrimStart(t) else t;
    if beforeDelimiter then TrimEnd(t') else t'
  }

  /** The literal at index `i` of a raw split, trimmed where it touches a delimiter. */
  function TrimmedAt(raw: seq<string>, i: nat): string
    requires i < |raw|
  {
    if i % 2 == 1 then raw[i] else TrimLiteral(raw[i], i > 0, i < |raw| - 1)
  }

  /** The token sequence newick.js:43 produces: the raw split with the
      whitespace next to each delimiter removed from the literals. */
  function Tokenize(s: string): (tokens: seq<string>)
    ensures |tokens| == |RawSplit(s)|
  {
    var raw := RawSplit(s);
    seq(|raw|, i requires 0 <= i < |raw| => TrimmedAt(raw, i))
  }

  /** The tokens alternate literal, delimiter, ..., literal, and the delimiter
      tokens are the structural characters of the input in input order. */
  lemma TokenizeShape(s: string)
    ensures var tokens := Tokenize(s);
      Alternates(tokens)
      && |tokens| == 2 * |Delimiters(s)| + 1
      && forall k :: 0 <= k < |Delimiters(s)| ==> tokens[2 * k + 1] == [Delimiters(s)[k]]
  {
    var raw, tokens := RawSplit(s), Tokenize(s);
    RawSplitShape(s);
    assert forall i :: 0 <= i < |raw| ==> tokens[i] == TrimmedAt(raw, i);
    TrimmedShape(raw, tokens, Delimiters(s));
  }

  /** Trimming the literals keeps the shape of a split. */
  lemma TrimmedShape(raw: seq<string>, tokens: seq<string>, d: string)
    requires Alternates(raw) && |raw| == 2 * |d| + 1
    requires forall k :: 0 <= k < |d| ==> raw[2 * k + 1] == [d[k]]
    requires |tokens| == |raw| && forall i :: 0 <= i < |raw| ==> tokens[i] == TrimmedAt(raw, i)
    ensures Alternates(tokens) && |tokens| == 2 * |d| + 1
    ensures forall k :: 0 <= k < |d| ==> tokens[2 * k + 1] == [d[k]]
  {
    TrimmedAlternates(raw, tokens);
    forall k | 0 <= k < |d| ensures tokens[2 * k + 1] == [d[k]] {
      assert tokens[2 * k + 1] == raw[2 * k + 1];
    }
  }

  lemma TrimmedAlternates(raw: seq<string>, tokens: seq<string>)
    requires Alternates(raw)
    requires |tokens| == |raw| && forall i :: 0 <= i < |raw| ==> tokens[i] == TrimmedAt(raw, i)
    ensures Alternates(tokens)
    ensures forall i :: 0 <= i < |raw| && i % 2 == 1 ==> tokens[i] == raw[i]
  {
    forall i | 0 <= i < |raw| && i % 2 == 0 ensures IsLiteral(tokens[i]) {
      TrimLiteralKeepsLiteral(raw[i], i > 0, i < |raw| - 1);
    }
  }

  /** Trimming never introduces a structural character. */
  lemma TrimLiteralKeepsLiteral(t: string, a: bool, b: bool)
    requires IsLiteral(t)
    ensures IsLiteral(TrimLiteral(t, a, b))
  {
    var t' := if a then TrimStart(t) else t;
    assert IsLiteral(t');
    var r := TrimLiteral(t, a, b);
    assert r == t'[..|r|];
  }

  /** The scan drops nothing and reorders nothing. */
  lemma {:induction false} RawSplitConcat(s: string)
    ensures Concat(RawSplit(s)) == s
  {
    if |s| > 0 {
      RawSplitConcat(s[1..]);
      var rest := RawSplit(s[1..]);
      if IsDelimiter(s[0]) {
        assert (["", [s[0]]] + rest)[1..] == [[s[0]]] + rest;
        assert ([[s[0]]] + rest)[1..] == rest;
      } else {
        assert Concat(rest) == rest[0] + Concat(rest[1..]);
        assert ([[s[0]] + rest[0]] + rest[1..])[1..] == rest[1..];
      }
    }
  }

  /** A literal followed by more text: the literal begins the first token. */
  lemma {:induction false} RawSplitAfterLiteral(lit: string, t: string)
    requires IsLiteral(lit)
    ensures RawSplit(lit + t) == [lit + RawSplit(t)[0]] + RawSplit(t)[1..]
    decreases |lit|
  {
    if |lit| == 0 {
      assert lit + t == t;
      var r := RawSplit(t);
      assert lit + r[0] == r[0];
      assert r == [r[0]] + r[1..];
    } else {
      assert (lit + t)[1..] == lit[1..] + t;
      RawSplitAfterLiteral(lit[1..], t);
      assert [lit[0]] + (lit[1..] + RawSplit(t)[0]) == lit + RawSplit(t)[0];
    }
  }

  /** Splitting the concatenation of an alternating token sequence gives the
      sequence back: with `RawSplitConcat`, the scan and concatenation are
      inverse to each other. */
  lemma {:induction false} RawSplitOfConcat(ts: seq<string>)
    requires Alternates(ts)
    ensures RawSplit(Concat(ts)) == ts
    decreases |ts|
  {
    var lit := ts[0];
    assert IsLiteral(lit);
    if |ts| == 1 {
      assert Concat(ts) == lit + "";
      RawSplitAfterLiteral(lit, "");
      assert lit + "" == lit;
      assert ts == [lit];
    } else {
      var d, rest := ts[1], ts[2..];
      AlternatesTail(ts);
      RawSplitOfConcat(rest);
      var t := d + Concat(rest);
      ConcatPair(ts);
      assert RawSplit(t) == ["", d] + rest by {
        assert IsDelimiterToken(d);
        assert t[1..] == Concat(rest);
        assert d == [t[0]];
      }
      RawSplitAfterLiteral(lit, t);
      assert lit + "" == lit;
      assert ts == [lit, d] + rest;
    }
  }

  /** Dropping the leading literal and delimiter keeps the alternation. */
  lemma AlternatesTail(ts: seq<string>)
    requires Alternates(ts) && |ts| > 1
    ensures Alternates(ts[2..])
  {
    var rest := ts[2..];
    forall i | 0 <= i < |rest| ensures if i % 2 == 0 then IsLiteral(rest[i]) else IsDelimiterToken(rest[i]) {
      assert rest[i] == ts[i + 2];
    }
  }

  /** The concatenation of a sequence of two or more tokens, by its first two. */
  lemma ConcatPair(ts: seq<string>)
    requires |ts| > 1
    ensures Concat(ts) == ts[0] + (ts[1] + Concat(ts[2..]))
  {
    assert ts[1..][1..] == ts[2..];
  }

  /** Every literal of the scan of whitespace-free input is whitespace-free. */
  lemma {:induction false} RawSplitNoSpace(s: string)
    requires NoSpace(s)
    ensures forall i :: 0 <= i < |RawSplit(s)| ==> NoSpace(RawSplit(s)[i])
  {
    if |s| > 0 {
      RawSplitNoSpace(s[1..]);
    }
  }

  /** On whitespace-free input the tokens concatenate back to the input. */
  lemma TokenizeRoundTrip(s: string)
    requires NoSpace(s)
    ensures Tokenize(s) == RawSplit(s)
    ensures Concat(Tokenize(s)) == s
  {
    var raw := RawSplit(s);
    RawSplitNoSpace(s);
    RawSplitConcat(s);
    forall i | 0 <= i < |raw| ensures Unpadded(raw[i]) {
      TrimStartNoSpace(raw[i]);
      TrimEndNoSpace(raw[i]);
    }
    TrimmedAtUnpadded(raw);
    assert Tokenize(s) == seq(|raw|, i requires 0 <= i < |raw| => TrimmedAt(raw, i));
  }

  /** A literal is never mistaken for a delimiter token. */
  lemma LiteralIsNoToken(t: string)
    requires IsLiteral(t)
    ensures t != "(" && t != ")" && t != "," && t != ":" && t != ";"
  {
    if |t| == 1 {
      assert !IsDelimiter(t[0]);
    }
  }

  /** Alternating tokens whose literals have no whitespace at either end are
      what their concatenation tokenizes to: trimming finds nothing to remove. */
  lemma TokenizeConcat(ts: seq<string>)
    requires Alternates(ts)
    requires forall i :: 0 <= i < |ts| ==> Unpadded(ts[i])
    ensures Tokenize(Concat(ts)) == ts
  {
    var s := Concat(ts);
    RawSplitOfConcat(ts);
    TrimmedAtUnpadded(RawSplit(s));
    assert Tokenize(s) == seq(|ts|, i requires 0 <= i < |ts| => TrimmedAt(ts, i));
  }

  /** Trimming each literal of a split whose tokens trimming keeps changes nothing. */
  lemma TrimmedAtUnpadded(raw: seq<string>)
    requires forall i :: 0 <= i < |raw| ==> Unpadded(raw[i])
    ensures forall i :: 0 <= i < |raw| ==> TrimmedAt(raw, i) == raw[i]
  {
    forall i | 0 <= i < |raw| ensures TrimmedAt(raw, i) == raw[i] {
      TrimKeepsUnpadded(raw[i]);
    }
  }

  /** Trimming leaves a text as it is exactly when the text neither starts nor
      ends with whitespace. */
  lemma UnpaddedTrim(t: string)
    ensures Unpadded(t) <==> TrimStart(t) == t && TrimEnd(t) == t
  {
    if Unpadded(t) {
      TrimKeepsUnpadded(t);
    } else {
      var i :| 0 <= i < |t| && (i == 0 || i == |t| - 1) && IsSpace(t[i]);
      if i == 0 {
        assert TrimStart(t) == TrimStart(t[1..]);
      } else {
        assert TrimEnd(t) == TrimEnd(t[..|t| - 1]);
      }
    }
  }

  lemma TrimKeepsUnpadded(t: string)
    requires Unpadded(t)
    ensures TrimStart(t) == t && TrimEnd(t) == t
  {
    if |t| > 0 {
      assert !IsSpace(t[0]) && !IsSpace(t[|t| - 1]);
    }
  }

  lemma TrimStartNoSpace(t: string)
    requires NoSpace(t)
    ensures TrimStart(t) == t
  {
  }

  lemma TrimEndNoSpace(t: string)
    requires NoSpace(t)
    ensures TrimEnd(t) == t
  {
  }

  /** `t`, the literal at index `i` of a raw split of `n` tokens, is
      `lead + r + trail` where `lead` and `trail` are whitespace, `lead` is empty
      for the first literal, `trail` is empty for the last, and `r` keeps no
      whitespace at an end that touches a delimiter. */
  ghost predicate TrimmedTo(t: string, r: string, lead: string, trail: string, i: nat, n: nat)
  {
    t == lead + r + trail && AllSpace(lead) && AllSpace(trail)
    && (i == 0 ==> lead == "")
    && (i == n - 1 ==> trail == "")
    && (i > 0 && |r| > 0 ==> !IsSpace(r[0]))
    && (i < n - 1 && |r| > 0 ==> !IsSpace(r[|r| - 1]))
  }

  /** Trimming removes the whole run of whitespace at the start (when the literal
      follows a delimiter) and at the end (when a delimiter follows it), and nothing else. */
  lemma TrimLiteralSplits(t: string, i: nat, n: nat)
    ensures var r := TrimLiteral(t, i > 0, i < n - 1);
      exists lead, trail :: TrimmedTo(t, r, lead, trail, i, n)
  {
    var t' := if i > 0 then TrimStart(t) else t;
    var r := if i < n - 1 then TrimEnd(t') else t';
    var lead := LeadOf(t, i > 0);
    var trail := TrailOf(t', i < n - 1);
    Regroup(t, t', r, lead, trail);
    assert r == TrimLiteral(t, i > 0, i < n - 1);
    assert TrimmedTo(t, r, lead, trail, i, n);
  }

  lemma Regroup(t: string, t': string, r: string, lead: string, trail: string)
    requires t == lead + t' && t' == r + trail
    ensures t == lead + r + trail
    ensures |r| > 0 ==> r[0] == t'[0]
  {
  }

  lemma LeadOf(t: string, trimmed: bool) returns (lead: string)
    ensures t == lead + (if trimmed then TrimStart(t) else t)
    ensures AllSpace(lead) && (!trimmed ==> lead == "")
  {
    var t' := if trimmed then TrimStart(t) else t;
    lead := t[..|t| - |t'|];
    assert t == lead + t';
  }

  lemma TrailOf(t: string, trimmed: bool) returns (trail: string)
    ensures t == (if trimmed then TrimEnd(t) else t) + trail
    ensures AllSpace(trail) && (!trimmed ==> trail == "")
  {
    var r := if trimmed then TrimEnd(t) else t;
    trail := t[|r|..];
    assert t == r + trail;
  }

  /** Each literal token is its raw literal minus the whitespace next to the
      delimiters around it: whitespace is removed at the start unless it is the
      first literal, at the end unless it is the last, and nowhere else. */
  lemma TokenizeTrims(s: string, i: nat)
    requires i < |RawSplit(s)| && i % 2 == 0
    ensures var raw, t := RawSplit(s)[i], Tokenize(s)[i];
      exists lead, trail :: TrimmedTo(raw, t, lead, trail, i, |RawSplit(s)|)
  {
    var raw := RawSplit(s);
    assert Tokenize(s)[i] == TrimLiteral(raw[i], i > 0, i < |raw| - 1);
    TrimLiteralSplits(raw[i], i, |raw|);
  }
}

=== FILE: tree.dfy ===
/** The tree objects newick.js builds, and the builder's state.

    JavaScript keeps `tree` (the node being filled) and `ancestors` (the open
    branchsets) as shared object references: the node being filled is always
    the last entry of the top ancestor's `branchset`, and each ancestor is the
    last entry of the one below it. The model keeps the same information as a
    zipper: each open branchset is a `Frame` holding the ancestor's own name
    and length and the children before the last one, and the last child is
    the node above it on the stack (or `current` for the top frame). */
module Tree {
  import opened Wrappers

  /** A tree object: `name`, `length` and `branchset` are each either absent or set.
      `length` holds the literal that JavaScript hands to `parseFloat`. */
  datatype Node = Node(name: Option<string>, length: Option<string>, branchset: Branchset)

  /** The `branchset` property: absent (a leaf) or an ordered list of children.
      An absent property and an empty list are different values. */
  datatype Branchset = Absent | Present(nodes: seq<Node>)

  /** The empty object literal `{}`. */
  const Fresh := Node(None, None, Absent)

  /** An open branchset: the ancestor's name and length and its earlier children. */
  datatype Frame = Frame(name: Option<string>, length: Option<string>, earlier: seq<Node>)

  /** The builder's state: `current` is `tree`; `ancestors` is the stack, bottom first. */
  datatype State = State(current: Node, ancestors: seq<Frame>)

  function Last<T>(s: seq<T>): T
    requires |s| > 0
  {
    s[|s| - 1]
  }

  /** The ancestor object described by `f`, whose last child is `child`. */
  function Plug(f: Frame, child: Node): (n: Node)
    ensures n.name == f.name && n.length == f.length
    ensures n.branchset.Present? && |n.branchset.nodes| == |f.earlier| + 1
    ensures n.branchset.nodes[..|f.earlier|] == f.earlier && Last(n.branchset.nodes) == child
  {
    Node(f.name, f.length, Present(f.earlier + [child]))
  }

  /** The JavaScript `ancestors` array as the objects it refers to, bottom first:
      every stacked object has a non-empty `branchset`, each one's last child is
      the next one up, and the top one's last child is `current`. */
  function Spine(frames: seq<Frame>, current: Node): (nodes: seq<Node>)
    ensures |nodes| == |frames|
    ensures forall k :: 0 <= k < |nodes| ==>
      nodes[k].branchset.Present? && |nodes[k].branchset.nodes| > 0
      && nodes[k].name == frames[k].name && nodes[k].length == frames[k].length
      && |nodes[k].branchset.nodes| == |frames[k].earlier| + 1
      && nodes[k].branchset.nodes[..|frames[k].earlier|] == frames[k].earlier
    ensures forall k :: 0 <= k < |nodes| - 1 ==> Last(nodes[k].branchset.nodes) == nodes[k + 1]
    ensures |nodes| > 0 ==> Last(Last(nodes).branchset.nodes) == current
    decreases |frames|
  {
    if |frames| == 0 then []
    else
      var top := Plug(Last(frames), current);
      Spine(frames[..|frames| - 1], top) + [top]
  }

  /** The whole tree: `current` plugged into every open frame from the top down.
      This is the object JavaScript first bound to `tree`. */
  function Fill(frames: seq<Frame>, n: Node): Node
    decreases |frames|
  {
    if |frames| == 0 then n
    else Fill(frames[..|frames| - 1], Plug(Last(frames), n))
  }

  function Root(st: State): Node {
    Fill(st.ancestors, st.current)
  }

  /** The top ancestor, `ancestors[ancestors.length-1]`. */
  function Parent(st: State): Node
    requires |st.ancestors| > 0
  {
    Plug(Last(st.ancestors), st.current)
  }

  /** Number of nodes in a subtree. */
  function Size(n: Node): nat
    decreases n, 1
  {
    1 + match n.branchset
        case Absent => 0
        case Present(cs) => SizeAll(cs)
  }

  function SizeAll(cs: seq<Node>): nat
    decreases cs, 0
  {
    if |cs| == 0 then 0 else Size(cs[|cs| - 1]) + SizeAll(cs[..|cs| - 1])
  }

  lemma SizeAllAppend(cs: seq<Node>, n: Node)
    ensures SizeAll(cs + [n]) == SizeAll(cs) + Size(n)
  {
    assert (cs + [n])[..|cs|] == cs;
  }

  /** The root is the bottom of the spine whenever the stack is not empty. */
  lemma {:induction false} RootIsSpineBottom(frames: seq<Frame>, n: Node)
    requires |frames| > 0
    ensures Fill(frames, n) == Spine(frames, n)[0]
    decreases |frames|
  {
    if |frames| > 1 {
      var top := Plug(Last(frames), n);
      RootIsSpineBottom(frames[..|frames| - 1], top);
    }
  }

  /** Every present `branchset` in the subtree is non-empty. */
  ghost predicate WellFormed(n: Node)
    decreases n
  {
    match n.branchset
    case Absent => true
    case Present(cs) => |cs| > 0 && forall i :: 0 <= i < |cs| ==> WellFormed(cs[i])
  }

  /** The builder invariant: `current` and every finished child of an open
      branchset are well formed. */
  ghost predicate Valid(st: State) {
    WellFormed(st.current)
    && forall k, j :: 0 <= k < |st.ancestors| && 0 <= j < |st.ancestors[k].earlier| ==>
         WellFormed(st.ancestors[k].earlier[j])
  }

  /** A valid state describes a well-formed tree: every node on the spine and
      the root have non-empty children lists all the way down. */
  lemma {:induction false} ValidFill(frames: seq<Frame>, n: Node)
    requires WellFormed(n)
    requires forall k, j :: 0 <= k < |frames| && 0 <= j < |frames[k].earlier| ==> WellFormed(frames[k].earlier[j])
    ensures WellFormed(Fill(frames, n))
    decreases |frames|
  {
    if |frames| > 0 {
      var top := Plug(Last(frames), n);
      assert WellFormed(top) by {
        var cs := top.branchset.nodes;
        forall i | 0 <= i < |cs| ensures WellFormed(cs[i]) {
          if i < |cs| - 1 {
            assert cs[i] == Last(frames).earlier[i];
          }
        }
      }
      ValidFill(frames[..|frames| - 1], top);
    }
  }

  lemma ValidRoot(st: State)
    requires Valid(st)
    ensures WellFormed(Root(st))
  {
    ValidFill(st.ancestors, st.current);
  }
}

=== FILE: wrappers.dfy ===
/** Option and Result datatypes used by the Newick model: an absent JavaScript
    property is `None`, and a parse that would throw in JavaScript is a `Failure`. */
module Wrappers {

  /** A value that may be absent, as an object property that may not be set. */
  datatype Option<+T> = None | Some(value: T)

  /** The outcome of an operation that can fail with an error of type `E`. */
  datatype Result<+R, +E> = Success(value: R) | Failure(error: E)
}
